=== FILE: README.md ===
# Worker pool and message protocol of sogeBot's `workers.js`, modelled in Dafny

`src/bot/workers.js` runs a coordinator (the main thread) and a pool of worker
threads. It spawns and respawns workers, routes messages by role (worker to
master, master to one or all workers), and dispatches each incoming message on
its `type`. This project models the sequential decisions under that plumbing as
pure functions over an immutable `State`:

- the role (`Main` or `Worker`) and the environment flags the code reads: `global.mocha`, db connected, translator loaded, and `db.engine.data` defined;
- the pool of worker handles, `onlineCount`, and a fresh-handle counter;
- the latency window `avgResponse` and `status.RES`;
- an **outbox**, the sequence of `(destination, message)` pairs that stands for every `postMessage`;
- the coordinator's list of db results;
- the requests handed to collaborators (logger, chat, events, API, translator, reflective calls, the db engine);
- a registry of `_.set` writes keyed by their whole dotted path.

The send primitives and `process` return an `Outcome`; the pool listeners and the `stats` step return a `State`. An `Outcome` is one of:

- `Done(state)`;
- `Deferred`: the readiness gate's retry, with nothing changed;
- `Threw(message)`: a role violation. Nothing is posted.

Modules, leaves first:

- `Types` (types.dfy): data model and error messages.
- `Stats` (stats.dfy): rolling window and `toFixed(0)` rounding.
- `DbOps` (dbops.dfy): the nine db operations, their labels and arguments. The engine is a function parameter.
- `Pool` (pool.dfy): `newWorker`, the `online`/`exit` listeners, and lifecycle histories.
- `Routing` (routing.dfy): `sendToMaster`, `sendToAllWorkers`, and the choice of a unit.
- `Dispatch` (dispatch.dfy): `process` on both sides.
- `Workers` (workers.dfy): `sendToWorker`, `send`, `sendToAll`, and lemmas that connect sending to processing.

Three facts about workers.js that a reader might not expect:

- `RES` is the window mean rounded by `toFixed(0)` (line 132), not truncated.
- The db operation labels are `find`, `findOne`, `increment`, `incrementOne`, `insert`, `remove`, `update`, `index` and `count` (lines 169-193).
- The coordinator's `lang` branch (line 119) names `cluster`, which the file never declares or imports, so the branch neither broadcasts nor reloads translations.

The model also shows three consequences of the code as written, each stated as a lemma:

- A `sendToAll` issued on a worker goes to master unchanged, and the coordinator's `process` never posts, so no other worker receives it (`Workers.WorkerSendToAllStopsAtMaster`).
- With an empty pool, a `db` request sent by the coordinator is processed locally as if it were a reply. It never reaches the engine, and when `db.engine.data` is defined it is recorded with its own `items` (`Workers.EmptyPoolDbSkipsEngine`).
- The `exit` listener never removes the dead handle, so `sendToWorker` can still choose it (`Workers.DeadHandleStillPickable`).

## Model

| member | source | states |
|---|---|---|
| Stats.Push | src/bot/workers.js:128-130 | the new sample is last; the window grows by one up to 100 samples and otherwise keeps its length by dropping exactly the oldest; it never exceeds 100 if it did not before |
| Stats.ToFixedZero | src/bot/workers.js:132 | the result is the integer nearest to num/den, halves rounding up for non-negative quotients and away from zero for negative ones, as `toFixed(0)` does |
| Stats.Step | src/bot/workers.js:126-132 | a `stats` message pushes its value into the window, publishes `RES` as the rounded mean of the window after eviction, and emits a warning exactly when the value is strictly above 1000; nothing else changes |
| Stats.SumAfterPush | src/bot/workers.js:128-131 | recomputing the window sum after a push equals the old sum plus the new sample minus the evicted sample |
| Stats.ResIsRoundedMean | src/bot/workers.js:127-132 | with non-negative samples, `RES` times 2n lies within n of twice the sum of the n window samples, i.e. `RES` is the mean rounded half-up |
| Stats.AverageExample | src/bot/workers.js:131-132 | samples 100, 200, 300 give `RES` 200 |
| DbOps.Parse | src/bot/workers.js:168-199 | a `fnc` selects an operation exactly when it is that operation's label; any other `fnc` selects none |
| DbOps.ParseName | src/bot/workers.js:168-195 | every one of the nine operations is selected by its own label |
| DbOps.Reply | src/bot/workers.js:167-199 | a known operation overwrites `items` with the engine's answer to the arguments the source passes; an unknown one leaves the message untouched; no other field changes |
| Pool.NewWorker | src/bot/workers.js:17-38 | off the main thread or under test, it logs the matching error and leaves pool and counter unchanged; otherwise it appends exactly one fresh handle and changes nothing else; the pool invariant is preserved |
| Pool.OnOnline | src/bot/workers.js:33-36 | the `online` listener increments `onlineCount` and changes nothing else |
| Pool.OnExit | src/bot/workers.js:28-32 | the `exit` listener decrements `onlineCount` and respawns; the old pool stays a prefix of the new one, which is one longer when spawning is allowed |
| Pool.DeadHandleStays | src/bot/workers.js:28-32 | the handle of a terminated unit is still in the pool after its `exit` listener ran |
| Pool.RunCounts | src/bot/workers.js:17-38 | over any history of spawns, onlines and exits: the counter moves by onlines minus exits; the pool never shrinks; it grows by spawns plus exits when spawning is allowed and not at all otherwise |
| Pool.RunKeepsWf | src/bot/workers.js:26-37 | handles stay distinct and fresh over any lifecycle history |
| Pool.SelfHealing | src/bot/workers.js:28-36 | once every spawned and respawned unit has come online, the counter is back to its start plus the spawns and the pool holds at least that many new handles |
| Routing.SendToMaster | src/bot/workers.js:61-67 | throws exactly on the main thread, with the source's message; on a worker posts the message once to master and changes nothing else |
| Routing.Broadcast | src/bot/workers.js:73-75 | one post per pooled handle, in pool order, each carrying the message |
| Routing.BroadcastOncePerUnit | src/bot/workers.js:73-75 | each handle receives the broadcast as often as it occurs in the pool |
| Routing.SendToAllWorkers | src/bot/workers.js:69-77 | throws exactly on a worker; on the main thread posts the message to every pooled unit in order and changes nothing else |
| Routing.Pick | src/bot/workers.js:86 | the sampled unit is a member of the pool, and any pooled unit can be the one sampled |
| Dispatch.MainRequest | src/bot/workers.js:118-144 | exactly the nine collaborator kinds issue a request, each with the fields the source passes: `whisper` carries the sender, `say` and `me` carry null, `api` carries method, username and id, `lang` stops at the undeclared `cluster` |
| Dispatch.ProcessMain | src/bot/workers.js:100-147 | a `db` reply is recorded as `{id, items}` before the readiness gate and even when not connected; every other kind is deferred with no effect until persistence and translation are ready; once ready, `stats` updates the window, `interface` writes the registry, a collaborator kind issues exactly its own request and nothing else, and an unknown kind changes nothing; the coordinator never posts, throws or touches the pool |
| Dispatch.WorkerRequest | src/bot/workers.js:154-166 | exactly `call`, `lang`, `shutdown` and `message` issue a request on a worker, each the one its branch makes |
| Dispatch.ProcessWorker | src/bot/workers.js:148-203 | a `db` request posts exactly one message to master, carrying the engine's result for a known operation and the untouched request otherwise; a known operation issues exactly one engine call, named by `fnc` and carrying the fields its branch passes, and an unknown one logs the two errors instead; `interface` writes the registry; a collaborator kind issues exactly its own request; other kinds post nothing and change nothing |
| Dispatch.Process | src/bot/workers.js:100-203 | in either role `process` never throws, only the coordinator defers, pool, online counter and environment are never touched, and the only post it ever makes is a worker's single reply to master for a `db` message |
| Workers.SendToWorker | src/bot/workers.js:79-89 | throws exactly on a worker; on the main thread with an empty pool it processes the message locally and posts nothing; otherwise it posts the unchanged message once, to a pooled unit |
| Workers.EveryUnitReachable | src/bot/workers.js:86 | every pooled unit is the target of some choice |
| Workers.Send | src/bot/workers.js:53-59 | never throws; a worker posts the message once to master; the coordinator behaves as `sendToWorker` |
| Workers.SendToAll | src/bot/workers.js:40-50 | a worker forwards the message unchanged to master; the coordinator issues the named call and then broadcasts the message retagged as `call` to every pooled unit |
| Workers.FanOutRunsSameCall | src/bot/workers.js:40-46 | every worker that processes a `sendToAll` broadcast issues the same call, with the same arguments, as the coordinator did |
| Workers.DbRoundTrip | src/bot/workers.js:103-201 | a worker answers a known `db` request with one engine call of that operation's name on the fields its branch passes; the reply comes back to master, which records the engine result under the request's id whether or not it is ready |
| Workers.UnknownDbOpEchoed | src/bot/workers.js:196-201 | an unknown `db` operation is still posted to master unchanged, and the coordinator records the request's own items |
| Workers.WfBroadcastOnce | src/bot/workers.js:69-77 | in a well-formed pool, every pooled unit receives a `sendToAllWorkers` broadcast exactly once |
| Workers.WorkerSendToAllStopsAtMaster | src/bot/workers.js:40-50 | a worker's `sendToAll` posts only to master, unchanged, and the coordinator's processing of any message posts nothing further |
| Workers.EmptyPoolDbSkipsEngine | src/bot/workers.js:79-89 | with an empty pool and `db.engine.data` defined, a coordinator-sent `db` request is recorded with its own items, and no engine call is issued |
| Workers.DeadHandleStillPickable | src/bot/workers.js:28-37 | after an `exit` listener ran, every handle of the old pool, the dead one included, is still a possible `sendToWorker` target |
| Workers.InterfaceWriteReadable | src/bot/workers.js:145-153 | after an `interface` message the registry holds the value at its path, on a worker at once and on the coordinator once ready |

## Left out

- Threads and listener registration (`Worker`, `parentPort`, `setListeners*`, the `message` listeners). Delivery is an append to the outbox, with no real concurrency. Each message is processed to completion before the next.
- The 1000 ms `setTimeout` retry. It appears only as the `Deferred` outcome, with no timing and no later re-run.
- The randomness of `_.sample`. It is the `choice` argument, reduced modulo the pool size.
- Reflective invocation through `_.get`/`apply` in `call` and `sendToAll`, and `global.api[fnc]`. They are recorded as `Invoke`/`ApiCall` requests. A path or method that does not resolve, which throws a `TypeError` in the source, is not modelled.
- The effects of collaborators: logger, chat (`commons`), `events`, `tmi`, the translator and the db engine. Only the request each handler issues is recorded; for the engine that is a `DbCall` naming the method and its arguments. The engine's answer is an arbitrary function of the operation and arguments, so the model assumes it never rejects and has no memory between calls.
- The coordinator's `lang` branch and the worker's `shutdown` branch. Each uses an identifier that workers.js never declares (`cluster`, `gracefullyExit`). Each is modelled as an `Unresolved` request naming it, with nothing else.
- The nested-object semantics of `_.set`. The registry is keyed by the whole dotted path, so a write to `a` does not change `a.b`. `status.RES` is also a separate field, not a registry entry.
- The `_.now()` timestamp on recorded db results, and `__DEBUG__` logging.
- In-place mutation of message objects. The source sets `opts.type` and `data.items` on the caller's own object. The model returns new messages instead.
- The source's single `value` field. The model splits it into `sample` (an integer latency, used by `stats`) and `value` (the payload of `interface`).
- Stats.ToFixedZero: rounds the exact rational mean. It does not model double-precision division, `parseInt` of non-integer samples, JavaScript comparison coercion, or `toFixed` switching to exponent notation for huge values. `RES` is an integer, not the source's string, so `"-0"` reads as 0.
- Pool.OnExit: takes no handle, because the source's listener closure never looks at its unit. The lifecycle lemmas do not tie events to particular handles.

=== FILE: dbops.dfy ===
/** The worker-side `db` sub-protocol: the nine engine operations a message's
    `fnc` may name, and the arguments each one is called with. */
module DbOps {
  import opened Types

  datatype DbOp = Find | FindOne | Increment | IncrementOne | Insert | Remove | Update | Index | Count

  /** The persistence engine, a collaborator: any function of the operation and its arguments. */
  type Engine = (DbOp, seq<Value>) -> Value

  /** The `case` label under which the source dispatches each operation. */
  function Name(op: DbOp): string
  {
    match op
    case Find => "find"
    case FindOne => "findOne"
    case Increment => "increment"
    case IncrementOne => "incrementOne"
    case Insert => "insert"
    case Remove => "remove"
    case Update => "update"
    case Index => "index"
    case Count => "count"
  }

  /** The `switch (data.fnc)`: a known label selects its operation, anything else none. */
  function Parse(fnc: string): (r: Option<DbOp>)
    ensures r.Some? ==> Name(r.value) == fnc
    ensures r.None? ==> forall op :: Name(op) != fnc
  {
    if fnc == "find" then Some(Find)
    else if fnc == "findOne" then Some(FindOne)
    else if fnc == "increment" then Some(Increment)
    else if fnc == "incrementOne" then Some(IncrementOne)
    else if fnc == "insert" then Some(Insert)
    else if fnc == "remove" then Some(Remove)
    else if fnc == "update" then Some(Update)
    else if fnc == "index" then Some(Index)
    else if fnc == "count" then Some(Count)
    else None
  }

  /** Every operation is reachable from its own label, and labels are distinct. */
  lemma ParseName(op: DbOp)
    ensures Parse(Name(op)) == Some(op)
  {
  }

  /** The message fields handed to the engine, in the order the source passes them. */
  function Args(op: DbOp, m: Msg): seq<Value>
  {
    match op
    case Find => [m.table, m.where, m.lookup]
    case FindOne => [m.table, m.where, m.lookup]
    case Increment => [m.table, m.where, m.obj]
    case IncrementOne => [m.table, m.where, m.obj]
    case Insert => [m.table, m.obj]
    case Remove => [m.table, m.where]
    case Update => [m.table, m.where, m.obj]
    case Index => [m.opts]
    case Count => [m.table, m.where, m.obj]
  }

  /** The message a worker replies with: `items` overwritten by the engine's answer
      for a known operation, the request untouched otherwise. */
  function Reply(m: Msg, engine: Engine): (r: Msg)
    ensures r.(items := m.items) == m
    ensures Parse(m.fnc).Some? ==> r.items == engine(Parse(m.fnc).value, Args(Parse(m.fnc).value, m))
    ensures Parse(m.fnc).None? ==> r == m
  {
    match Parse(m.fnc)
    case Some(op) => m.(items := engine(op, Args(op, m)))
    case None => m
  }
}

=== FILE: dispatch.dfy ===
/** `process`: the coordinator's and the worker's handling of one incoming message. */
module Dispatch {
  import opened Types
  import Stats
  import DbOps
  import Routing

  /** Persistence connected and the translator loaded. */
  predicate Ready(env: Env)
  {
    env.dbConnected && env.translateLoaded
  }

  /** Kinds the coordinator handles itself rather than through a collaborator request. */
  const MainStateKinds := {"db", "stats", "interface"}

  /** Kinds the coordinator hands to a collaborator. */
  const MainRequestKinds := {"lang", "call", "log", "say", "me", "whisper", "timeout", "api", "event"}

  /** Kinds the worker hands to a collaborator. */
  const WorkerRequestKinds := {"call", "lang", "shutdown", "message"}

  /** The collaborator request a coordinator-side kind issues, if any. `lang` stops at the
      identifier `cluster`, which workers.js never declares. */
  function MainRequest(m: Msg): (r: Option<Effect>)
    ensures r.Some? <==> m.kind in MainRequestKinds
    ensures m.kind == "lang" ==> r == Some(Unresolved("cluster"))
    ensures m.kind == "call" ==> r == Some(Invoke(m.ns, m.fnc, m.args))
    ensures m.kind == "log" ==> r == Some(LogAt(m.level, m.text, m.params))
    ensures m.kind in {"say", "me", "whisper"} ==>
      && r.Some? && r.value.Chat?
      && r.value.style == m.kind
      && r.value.text == m.text
      && r.value.sender == (if m.kind == "whisper" then m.sender else Null)
    ensures m.kind == "timeout" ==> r == Some(ModTimeout(m.username, m.reason, m.timeout))
    ensures m.kind == "api" ==> r == Some(ApiCall(m.fnc, m.username, m.id))
    ensures m.kind == "event" ==> r == Some(FireEvent(m.eventId, m.attributes))
  {
    if m.kind == "lang" then Some(Unresolved("cluster"))
    else if m.kind == "call" then Some(Invoke(m.ns, m.fnc, m.args))
    else if m.kind == "log" then Some(LogAt(m.level, m.text, m.params))
    else if m.kind == "say" then Some(Chat("say", Null, m.text))
    else if m.kind == "me" then Some(Chat("me", Null, m.text))
    else if m.kind == "whisper" then Some(Chat("whisper", m.sender, m.text))
    else if m.kind == "timeout" then Some(ModTimeout(m.username, m.reason, m.timeout))
    else if m.kind == "api" then Some(ApiCall(m.fnc, m.username, m.id))
    else if m.kind == "event" then Some(FireEvent(m.eventId, m.attributes))
    else None
  }

  /** Coordinator side. A `db` reply is recorded (when the results list exists) before and
      regardless of the readiness gate; every other kind is deferred, with no effect, until
      persistence and translation are ready. The coordinator never posts, never throws and
      never touches the pool. */
  function ProcessMain(s: State, m: Msg): (r: Outcome)
    ensures !r.Threw?
    ensures r.Deferred? <==> m.kind != "db" && !Ready(s.env)
    ensures r.Done? ==> r.st.outbox == s.outbox && r.st.pool == s.pool && r.st.onlineCount == s.onlineCount
    ensures m.kind == "db" && s.env.dbDataDefined ==>
      r.Done? && r.st == s.(records := s.records + [Record(m.id, m.items)])
    ensures m.kind == "db" && !s.env.dbDataDefined ==> r == Done(s)
    ensures m.kind == "stats" && Ready(s.env) ==> r == Done(Stats.Step(s, m))
    ensures m.kind == "interface" && Ready(s.env) ==>
      r.Done? && r.st == s.(registry := s.registry[m.path := m.value])
    ensures m.kind in MainRequestKinds && Ready(s.env) ==>
      r.Done? && OnlyRequests(s, r.st, [MainRequest(m).value])
    ensures m.kind !in MainStateKinds + MainRequestKinds && Ready(s.env) ==> r == Done(s)
  {
    if m.kind == "db" then
      if s.env.dbDataDefined then Done(s.(records := s.records + [Record(m.id, m.items)])) else Done(s)
    else if !Ready(s.env) then Deferred
    else if m.kind == "stats" then Done(Stats.Step(s, m))
    else if m.kind == "interface" then Done(s.(registry := s.registry[m.path := m.value]))
    else match MainRequest(m)
      case Some(e) => Done(s.(effects := s.effects + [e]))
      case None => Done(s)
  }

  /** The collaborator request a worker-side kind issues, if any, `db` aside. `shutdown`
      calls `gracefullyExit`, which workers.js never declares. */
  function WorkerRequest(m: Msg): (r: Option<Effect>)
    ensures r.Some? <==> m.kind in WorkerRequestKinds
    ensures m.kind == "call" ==> r == Some(Invoke(m.ns, m.fnc, m.args))
    ensures m.kind == "lang" ==> r == Some(LoadTranslations)
    ensures m.kind == "shutdown" ==> r == Some(Unresolved("gracefullyExit"))
    ensures m.kind == "message" ==> r == Some(TmiMessage(m))
  {
    if m.kind == "call" then Some(Invoke(m.ns, m.fnc, m.args))
    else if m.kind == "lang" then Some(LoadTranslations)
    else if m.kind == "shutdown" then Some(Unresolved("gracefullyExit"))
    else if m.kind == "message" then Some(TmiMessage(m))
    else None
  }

  /** What a worker hands on for a `db` request: the engine call a known operation makes,
      or the two error lines logged for an unknown one. */
  function DbRequests(m: Msg): seq<Effect>
  {
    match DbOps.Parse(m.fnc)
    case Some(op) => [DbCall(m.fnc, DbOps.Args(op, m))]
    case None => [LogError(ErrBadDbCall), LogErrorMsg(m)]
  }

  /** Worker side. A `db` request calls the engine operation its `fnc` names, overwriting
      `items` only for a known name (an unknown one is logged instead), and in every case
      posts the message to master exactly once. Other kinds post nothing. */
  function ProcessWorker(s: State, m: Msg, engine: DbOps.Engine): (r: Outcome)
    requires s.env.role == Worker
    ensures r.Done?
    ensures m.kind == "db" ==>
      && r.st.outbox == s.outbox + [Post(Master, DbOps.Reply(m, engine))]
      && r.st.(outbox := s.outbox, effects := s.effects) == s
    ensures m.kind == "db" && DbOps.Parse(m.fnc).Some? ==>
      r.st.effects == s.effects + [DbCall(m.fnc, DbOps.Args(DbOps.Parse(m.fnc).value, m))]
    ensures m.kind == "db" && DbOps.Parse(m.fnc).None? ==>
      r.st.effects == s.effects + [LogError(ErrBadDbCall), LogErrorMsg(m)]
    ensures m.kind != "db" ==> r.st.outbox == s.outbox
    ensures m.kind == "interface" ==> r.st == s.(registry := s.registry[m.path := m.value])
    ensures m.kind in WorkerRequestKinds ==> OnlyRequests(s, r.st, [WorkerRequest(m).value])
    ensures m.kind !in WorkerRequestKinds + {"db", "interface"} ==> r == Done(s)
  {
    if m.kind == "interface" then Done(s.(registry := s.registry[m.path := m.value]))
    else if m.kind == "db" then
      Routing.SendToMaster(s.(effects := s.effects + DbRequests(m)), DbOps.Reply(m, engine))
    else match WorkerRequest(m)
      case Some(e) => Done(s.(effects := s.effects + [e]))
      case None => Done(s)
  }

  /** `process`, in either role: it never throws, only the coordinator defers, the pool,
      counter and environment are never touched, and the only post it ever makes is a
      worker's single reply upward to a `db` message. */
  function Process(s: State, m: Msg, engine: DbOps.Engine): (r: Outcome)
    ensures !r.Threw?
    ensures r.Deferred? ==> s.env.role == Main
    ensures r.Done? ==> r.st.pool == s.pool && r.st.onlineCount == s.onlineCount && r.st.env == s.env
    ensures r.Done? ==>
      || r.st.outbox == s.outbox
      || (s.env.role == Worker && m.kind == "db" && r.st.outbox == s.outbox + [Post(Master, DbOps.Reply(m, engine))])
  {
    if s.env.role == Main then ProcessMain(s, m) else ProcessWorker(s, m, engine)
  }
}

=== FILE: pool.dfy ===
/** Lifecycle of the coordinator's pool: `newWorker` and the `online` / `exit`
    listeners it registers on every unit it spawns. */
module Pool {
  import opened Types

  /** Spawning is allowed only on the main thread and outside the test runner. */
  predicate CanSpawn(env: Env)
  {
    env.role == Main && !env.testing
  }

  /** Handles are distinct and all drawn below the fresh-handle counter; a worker holds no pool. */
  ghost predicate Wf(s: State)
  {
    && (forall i :: 0 <= i < |s.pool| ==> s.pool[i] < s.nextHandle)
    && (forall i, j :: 0 <= i < j < |s.pool| ==> s.pool[i] != s.pool[j])
    && (s.env.role == Worker ==> s.pool == [])
  }

  /** `newWorker`: refused with a logged error (never thrown) off the main thread or under
      test, leaving pool and counter alone; otherwise exactly one fresh handle is appended. */
  function NewWorker(s: State): (r: State)
    ensures !CanSpawn(s.env) ==> OnlyRequests(s, r, [LogError(if s.env.role == Worker then ErrSpawnInThread else ErrSpawnTesting)])
    ensures CanSpawn(s.env) ==> |r.pool| == |s.pool| + 1 && r.pool[..|s.pool|] == s.pool
    ensures CanSpawn(s.env) ==> r.(pool := s.pool, nextHandle := s.nextHandle) == s
    ensures Wf(s) ==> Wf(r)
    ensures Wf(s) && CanSpawn(s.env) ==> r.pool[|s.pool|] !in s.pool
  {
    if s.env.role == Worker then
      s.(effects := s.effects + [LogError(ErrSpawnInThread)])
    else if s.env.testing then
      s.(effects := s.effects + [LogError(ErrSpawnTesting)])
    else
      s.(pool := s.pool + [s.nextHandle], nextHandle := s.nextHandle + 1)
  }

  /** The `online` listener: one more unit reported ready, nothing else changes. */
  function OnOnline(s: State): (r: State)
    ensures r.onlineCount == s.onlineCount + 1
    ensures r.(onlineCount := s.onlineCount) == s
  {
    s.(onlineCount := s.onlineCount + 1)
  }

  /** The `exit` listener: one fewer unit online, then a respawn. The dead handle is
      never removed, so the old pool survives as a prefix of the new one. */
  function OnExit(s: State): (r: State)
    ensures r.onlineCount == s.onlineCount - 1
    ensures |r.pool| >= |s.pool| && r.pool[..|s.pool|] == s.pool
    ensures CanSpawn(s.env) ==> |r.pool| == |s.pool| + 1
    ensures !CanSpawn(s.env) ==> r.pool == s.pool
    ensures Wf(s) ==> Wf(r)
  {
    NewWorker(s.(onlineCount := s.onlineCount - 1))
  }

  /** A terminated unit's handle is still in the pool after its `exit` listener ran. */
  lemma DeadHandleStays(s: State, dead: Handle)
    requires dead in s.pool
    ensures dead in OnExit(s).pool
  {
  }

  /** Lifecycle events: an external `newWorker` call, or a listener firing. */
  datatype Event = Spawn | Online | Exit

  function Apply(s: State, e: Event): State
  {
    match e
    case Spawn => NewWorker(s)
    case Online => OnOnline(s)
    case Exit => OnExit(s)
  }

  function Run(s: State, es: seq<Event>): State
    decreases |es|
  {
    if es == [] then s else Run(Apply(s, es[0]), es[1..])
  }

  function Occurrences(es: seq<Event>, e: Event): nat
  {
    if es == [] then 0 else (if es[0] == e then 1 else 0) + Occurrences(es[1..], e)
  }

  /** Over any lifecycle history: the counter moves by onlines minus exits; the pool only
      grows, by one per spawn and one per exit when spawning is allowed, and not at all
      otherwise; the environment and the message-side state are untouched. */
  lemma {:induction false} RunCounts(s: State, es: seq<Event>)
    ensures Run(s, es).onlineCount == s.onlineCount + Occurrences(es, Online) - Occurrences(es, Exit)
    ensures |Run(s, es).pool| >= |s.pool| && Run(s, es).pool[..|s.pool|] == s.pool
    ensures CanSpawn(s.env) ==> |Run(s, es).pool| == |s.pool| + Occurrences(es, Spawn) + Occurrences(es, Exit)
    ensures !CanSpawn(s.env) ==> Run(s, es).pool == s.pool
    ensures Run(s, es).env == s.env && Run(s, es).outbox == s.outbox && Run(s, es).window == s.window
    ensures Run(s, es).registry == s.registry && Run(s, es).records == s.records
    decreases |es|
  {
    if es != [] {
      var t := Apply(s, es[0]);
      RunCounts(t, es[1..]);
      assert Run(s, es) == Run(t, es[1..]);
      var u := Run(t, es[1..]);
      assert u.pool[..|s.pool|] == u.pool[..|t.pool|][..|s.pool|];
    }
  }

  /** The pool invariant holds along any lifecycle history. */
  lemma {:induction false} RunKeepsWf(s: State, es: seq<Event>)
    requires Wf(s)
    ensures Wf(Run(s, es))
    decreases |es|
  {
    if es != [] {
      RunKeepsWf(Apply(s, es[0]), es[1..]);
    }
  }

  /** Self-healing: once every spawned and every respawned unit has reported online,
      the counter is back to its start plus the spawns, and the pool holds at least
      one handle per spawn on top of what it had. */
  lemma SelfHealing(s: State, es: seq<Event>)
    requires CanSpawn(s.env)
    requires Occurrences(es, Online) == Occurrences(es, Spawn) + Occurrences(es, Exit)
    ensures Run(s, es).onlineCount == s.onlineCount + Occurrences(es, Spawn)
    ensures |Run(s, es).pool| >= |s.pool| + Occurrences(es, Spawn)
  {
    RunCounts(s, es);
  }
}

=== FILE: routing.dfy ===
/** The role-gated send primitives that only post: `sendToMaster`,
    `sendToAllWorkers`, and the unit choice of `sendToWorker`. */
module Routing {
  import opened Types

  /** `sendToMaster`: throws on the main thread; on a worker, exactly one post to master. */
  function SendToMaster(s: State, m: Msg): (r: Outcome)
    ensures r.Threw? <==> s.env.role == Main
    ensures r.Threw? ==> r.error == ErrMasterToMaster
    ensures r.Done? ==> OnlyPosts(s, r.st, [Post(Master, m)])
    ensures !r.Deferred?
  {
    if s.env.role == Main then Threw(ErrMasterToMaster)
    else Done(s.(outbox := s.outbox + [Post(Master, m)]))
  }

  /** One post of `m` to each handle of `pool`, in pool order. */
  function Broadcast(pool: seq<Handle>, m: Msg): (ps: seq<Post>)
    ensures |ps| == |pool|
    ensures forall i :: 0 <= i < |pool| ==> ps[i] == Post(Unit(pool[i]), m)
  {
    if pool == [] then [] else [Post(Unit(pool[0]), m)] + Broadcast(pool[1..], m)
  }

  /** Number of posts addressed to `d`. */
  function PostsTo(ps: seq<Post>, d: Dest): nat
  {
    if ps == [] then 0 else (if ps[0].dest == d then 1 else 0) + PostsTo(ps[1..], d)
  }

  function Occurs(pool: seq<Handle>, h: Handle): nat
  {
    if pool == [] then 0 else (if pool[0] == h then 1 else 0) + Occurs(pool[1..], h)
  }

  /** Each handle receives the broadcast as many times as it occurs in the pool:
      once per pooled unit when handles are distinct, never when absent. */
  lemma {:induction false} BroadcastOncePerUnit(pool: seq<Handle>, m: Msg, h: Handle)
    ensures PostsTo(Broadcast(pool, m), Unit(h)) == Occurs(pool, h)
  {
    if pool != [] {
      var ps := Broadcast(pool, m);
      assert ps[1..] == Broadcast(pool[1..], m);
      BroadcastOncePerUnit(pool[1..], m, h);
    }
  }

  lemma {:induction false} OccursAbsent(pool: seq<Handle>, h: Handle)
    requires h !in pool
    ensures Occurs(pool, h) == 0
  {
    if pool != [] {
      OccursAbsent(pool[1..], h);
    }
  }

  /** In a pool of distinct handles every member occurs exactly once. */
  lemma {:induction false} OccursDistinct(pool: seq<Handle>, h: Handle)
    requires forall i, j :: 0 <= i < j < |pool| ==> pool[i] != pool[j]
    requires h in pool
    ensures Occurs(pool, h) == 1
  {
    if pool[0] == h {
      assert forall k :: 0 <= k < |pool[1..]| ==> pool[1..][k] == pool[k + 1];
      OccursAbsent(pool[1..], h);
    } else {
      assert h in pool[1..];
      OccursDistinct(pool[1..], h);
    }
  }

  /** `sendToAllWorkers`: throws on a worker; on the main thread, the message goes to
      every pooled unit in pool order and nothing else changes. */
  function SendToAllWorkers(s: State, m: Msg): (r: Outcome)
    ensures r.Threw? <==> s.env.role == Worker
    ensures r.Threw? ==> r.error == ErrWorkerToWorker
    ensures r.Done? ==> OnlyPosts(s, r.st, Broadcast(s.pool, m))
    ensures r.Done? ==> |r.st.outbox| == |s.outbox| + |s.pool|
    ensures !r.Deferred?
  {
    if s.env.role == Worker then Threw(ErrWorkerToWorker)
    else Done(s.(outbox := s.outbox + Broadcast(s.pool, m)))
  }

  /** `_.sample(this.list)` with the random draw made an argument: any choice lands on
      a pooled unit, and each pooled unit is the pick of some choice. */
  function Pick(pool: seq<Handle>, choice: nat): (h: Handle)
    requires pool != []
    ensures h in pool
    ensures choice < |pool| ==> h == pool[choice]
  {
    pool[choice % |pool|]
  }
}

=== FILE: stats.dfy ===
/** The latency rolling window behind the coordinator's `stats` message:
    push a sample, evict one from the front once over capacity, publish the
    rounded mean as `RES`, and warn about slow samples. */
module Stats {
  import opened Types

  const Capacity := 100
  const SlowThreshold := 1000

  function Sum(w: seq<int>): int
  {
    if w == [] then 0 else w[0] + Sum(w[1..])
  }

  /** `avgResponse.push(v)` followed by at most one `shift()` when the window holds more
      than `Capacity` samples: the result is a suffix of `w + [v]` ending in `v`. */
  function Push(w: seq<int>, v: int): (r: seq<int>)
    ensures |r| > 0 && r[|r| - 1] == v
    ensures |r| == if |w| >= Capacity then |w| else |w| + 1
    ensures r == (w + [v])[|w| + 1 - |r|..]
    ensures |w| <= Capacity ==> |r| <= Capacity
    ensures |w| == Capacity ==> r == w[1..] + [v]
  {
    var pushed := w + [v];
    if |pushed| > Capacity then pushed[1..] else pushed
  }

  /** `(num / den).toFixed(0)` read back as an integer: the nearest integer to the
      quotient, a tie going away from zero (upwards for non-negative quotients). */
  function ToFixedZero(num: int, den: int): (r: int)
    requires den > 0
    ensures num >= 0 ==> r >= 0 && den * (2 * r - 1) <= 2 * num < den * (2 * r + 1)
    ensures num < 0 ==> r <= 0 && den * (2 * r - 1) < 2 * num <= den * (2 * r + 1)
  {
    if num >= 0 then RoundUpHalf(num, den) else 0 - RoundUpHalf(-num, den) as int
  }

  function RoundUpHalf(num: nat, den: int): (q: nat)
    requires den > 0
    ensures den * (2 * q - 1) <= 2 * num < den * (2 * q + 1)
  {
    var x := 2 * num + den;
    var q := x / (2 * den);
    assert x == 2 * den * q + x % (2 * den);
    q
  }

  /** The `stats` branch on the coordinator, once the readiness gate is passed. */
  function Step(s: State, m: Msg): (r: State)
    ensures r.window == Push(s.window, m.sample)
    ensures |r.window| > 0
    ensures r.res == ToFixedZero(Sum(r.window), |r.window|)
    ensures |r.effects| == |s.effects| + 1 <==> m.sample > SlowThreshold
    ensures m.sample > SlowThreshold ==> r.effects == s.effects + [SlowResponse(m.sample, m.text)]
    ensures m.sample <= SlowThreshold ==> r.effects == s.effects
    ensures r.(window := s.window, res := s.res, effects := s.effects) == s
  {
    var warned := if m.sample > SlowThreshold then s.effects + [SlowResponse(m.sample, m.text)] else s.effects;
    var w := Push(s.window, m.sample);
    s.(window := w, res := ToFixedZero(Sum(w), |w|), effects := warned)
  }

  lemma {:induction false} SumAppend(w: seq<int>, v: int)
    ensures Sum(w + [v]) == Sum(w) + v
  {
    if w == [] {
      assert [v][1..] == [];
    } else {
      assert (w + [v])[1..] == w[1..] + [v];
      SumAppend(w[1..], v);
    }
  }

  /** Recomputing the sum over the window after a push agrees with updating a running
      total: add the new sample, subtract the evicted one if any. */
  lemma SumAfterPush(w: seq<int>, v: int)
    ensures Sum(Push(w, v)) == Sum(w) + v - (if |w| >= Capacity then w[0] else 0)
  {
    var pushed := w + [v];
    SumAppend(w, v);
    if |w| >= Capacity {
      assert Push(w, v) == pushed[1..];
      assert Sum(pushed) == pushed[0] + Sum(pushed[1..]);
      assert pushed[0] == w[0];
    } else {
      assert Push(w, v) == pushed;
    }
  }

  /** With non-negative samples the published `RES` is the window mean rounded
      half-up, taken over the window after eviction. */
  lemma ResIsRoundedMean(s: State, m: Msg)
    requires forall i :: 0 <= i < |s.window| ==> s.window[i] >= 0
    requires m.sample >= 0
    ensures var t := Step(s, m);
      var n := |t.window|;
      n > 0 && t.res >= 0 && n * (2 * t.res - 1) <= 2 * Sum(t.window) < n * (2 * t.res + 1)
  {
    var t := Step(s, m);
    var all := s.window + [m.sample];
    assert forall i :: 0 <= i < |all| ==> all[i] >= 0;
    var k := |s.window| + 1 - |t.window|;
    assert t.window == all[k..];
    assert forall i :: 0 <= i < |t.window| ==> t.window[i] == all[k + i];
    SumNonNegative(t.window);
    var n := |t.window|;
    assert t.res == ToFixedZero(Sum(t.window), n);
  }

  lemma {:induction false} SumNonNegative(w: seq<int>)
    requires forall i :: 0 <= i < |w| ==> w[i] >= 0
    ensures Sum(w) >= 0
  {
    if w != [] {
      assert forall i :: 0 <= i < |w[1..]| ==> w[1..][i] == w[i + 1];
      SumNonNegative(w[1..]);
    }
  }

  /** Samples [100, 200, 300] average to 200. */
  lemma AverageExample()
    ensures ToFixedZero(Sum([100, 200, 300]), 3) == 200
  {
  }
}

=== FILE: types.dfy ===
/** Shared vocabulary of the worker pool: roles, handles, the message record,
    the collaborator requests a handler may issue, and the state a process keeps. */
module Types {

  datatype Option<+T> = None | Some(value: T)

  /** A JSON-like payload carried in message fields and the shared registry. */
  datatype Value =
    | Undefined
    | Null
    | Num(n: int)
    | Str(s: string)
    | List(elems: seq<Value>)
    | Obj(fields: map<string, Value>)

  /** `isMainThread` made explicit: the coordinator is Main, a spawned thread is Worker. */
  datatype Role = Main | Worker

  /** An opaque execution-unit handle; fresh handles are drawn from a counter. */
  type Handle = nat

  /** Where a posted message goes: up to the coordinator, or down to one pooled unit. */
  datatype Dest = Master | Unit(handle: Handle)

  /** One `postMessage` call: the abstract outbox is the sequence of these. */
  datatype Post = Post(dest: Dest, msg: Msg)

  /** A protocol message. `kind` is the source's `type` discriminant; the other fields are
      the payload fields the handlers read. The source's single `value` field is split by use:
      `sample` is the latency of a `stats` message, `value` the payload of an `interface` write. */
  datatype Msg = Msg(
    kind: string,
    ns: string, fnc: string, args: seq<Value>,
    id: Value, items: Value,
    table: Value, where: Value, lookup: Value, obj: Value, opts: Value,
    sample: int, text: string,
    level: string, params: Value,
    sender: Value, username: Value, reason: Value, timeout: Value,
    eventId: Value, attributes: Value,
    path: string, value: Value)

  /** An entry of the coordinator's pending db results (`global.db.engine.data`). */
  datatype Record = Record(id: Value, items: Value)

  /** A request handed to a collaborator (logger, chat, events, API, translator, registry call,
      db engine). Only the request is modelled, never its effect. */
  datatype Effect =
    | LogError(line: string)
    | LogErrorMsg(msg: Msg)
    | SlowResponse(ms: int, text: string)
    | LogAt(level: string, text: string, params: Value)
    | Invoke(ns: string, fnc: string, args: seq<Value>)
    | Chat(style: string, sender: Value, text: string)
    | ModTimeout(username: Value, reason: Value, duration: Value)
    | ApiCall(fnc: string, username: Value, id: Value)
    | FireEvent(eventId: Value, attributes: Value)
    | LoadTranslations
    | TmiMessage(msg: Msg)
    | Unresolved(name: string)
    | DbCall(op: string, args: seq<Value>)

  /** Process-wide facts the handlers read but never write. */
  datatype Env = Env(
    role: Role,
    testing: bool,          // `global.mocha` is set
    dbConnected: bool,      // `global.db.engine.connected`
    translateLoaded: bool,  // `global.lib.translate` exists
    dbDataDefined: bool)    // `global.db.engine.data` is defined

  /** Everything a process observably owns. `window` is `global.avgResponse`, `res` is
      `status.RES`, `registry` holds `_.set` writes keyed by their whole dotted path. */
  datatype State = State(
    env: Env,
    pool: seq<Handle>,
    onlineCount: int,
    nextHandle: nat,
    window: seq<int>,
    res: int,
    outbox: seq<Post>,
    records: seq<Record>,
    effects: seq<Effect>,
    registry: map<string, Value>)

  /** Result of one operation: finished with a new state, put off by the readiness
      gate (retried later, nothing changed), or aborted by a thrown error. */
  datatype Outcome = Done(st: State) | Deferred | Threw(error: string)

  const ErrMasterToMaster := "Cannot send to master from master!"
  const ErrWorkerToWorker := "Cannot send to worker from worker!"
  const ErrSpawnInThread := "Cannot create new worker in thread"
  const ErrSpawnTesting := "Testing, not creating any workers"
  const ErrBadDbCall := "This db call is not correct"

  /** `t` differs from `s` only by having `posts` appended to the outbox. */
  predicate OnlyPosts(s: State, t: State, posts: seq<Post>)
  {
    t.outbox == s.outbox + posts && t.(outbox := s.outbox) == s
  }

  /** `t` differs from `s` only by having `es` appended to the collaborator requests. */
  predicate OnlyRequests(s: State, t: State, es: seq<Effect>)
  {
    t.effects == s.effects + es && t.(effects := s.effects) == s
  }
}

=== FILE: workers.dfy ===
/** The send primitives that may fall back on local processing (`sendToWorker`,
    `send`, `sendToAll`) and properties that relate sending to processing. */
module Workers {
  import opened Types
  import DbOps
  import Routing
  import Dispatch
  import Pool

  /** `sendToWorker`: throws on a worker. On the main thread with an empty pool the message
      is processed locally and nothing is posted; otherwise it is posted, unchanged, to
      exactly one pooled unit, the one `choice` selects. */
  function SendToWorker(s: State, m: Msg, choice: nat): (r: Outcome)
    ensures r.Threw? <==> s.env.role == Worker
    ensures r.Threw? ==> r.error == ErrWorkerToWorker
    ensures s.env.role == Main && s.pool == [] ==> r == Dispatch.ProcessMain(s, m)
    ensures s.env.role == Main && s.pool == [] && r.Done? ==> r.st.outbox == s.outbox
    ensures s.env.role == Main && s.pool != [] ==>
      && r.Done?
      && |r.st.outbox| == |s.outbox| + 1
      && OnlyPosts(s, r.st, [r.st.outbox[|s.outbox|]])
      && r.st.outbox[|s.outbox|].msg == m
      && r.st.outbox[|s.outbox|].dest.Unit?
      && r.st.outbox[|s.outbox|].dest.handle in s.pool
  {
    if s.env.role == Worker then Threw(ErrWorkerToWorker)
    else if s.pool == [] then Dispatch.ProcessMain(s, m)
    else Done(s.(outbox := s.outbox + [Post(Unit(Routing.Pick(s.pool, choice)), m)]))
  }

  /** Every pooled unit is a possible target of `sendToWorker`. */
  lemma EveryUnitReachable(s: State, m: Msg, i: nat)
    requires s.env.role == Main && i < |s.pool|
    ensures SendToWorker(s, m, i) == Done(s.(outbox := s.outbox + [Post(Unit(s.pool[i]), m)]))
  {
  }

  /** `send`: a worker always posts to master; the coordinator behaves as `sendToWorker`.
      Either way `send` never throws. */
  function Send(s: State, m: Msg, choice: nat): (r: Outcome)
    ensures !r.Threw?
    ensures s.env.role == Worker ==> r.Done? && OnlyPosts(s, r.st, [Post(Master, m)])
    ensures s.env.role == Main ==> r == SendToWorker(s, m, choice)
  {
    if s.env.role == Worker then Routing.SendToMaster(s, m) else SendToWorker(s, m, choice)
  }

  /** `sendToAll`: a worker forwards the message unchanged to master. The coordinator runs the
      named call itself, then broadcasts the message retagged as `call` to every pooled unit. */
  function SendToAll(s: State, m: Msg): (r: Outcome)
    ensures r.Done?
    ensures s.env.role == Worker ==> OnlyPosts(s, r.st, [Post(Master, m)])
    ensures s.env.role == Main ==>
      && r.st.effects == s.effects + [Invoke(m.ns, m.fnc, m.args)]
      && r.st.outbox == s.outbox + Routing.Broadcast(s.pool, m.(kind := "call"))
      && r.st.(effects := s.effects, outbox := s.outbox) == s
  {
    if s.env.role == Main then
      Routing.SendToAllWorkers(s.(effects := s.effects + [Invoke(m.ns, m.fnc, m.args)]), m.(kind := "call"))
    else
      Routing.SendToMaster(s, m)
  }

  /** A coordinator-side `sendToAll` and the processing of its broadcast by any worker
      issue the same call: every unit that receives the retagged message invokes the
      method the coordinator invoked, with the same arguments. */
  lemma FanOutRunsSameCall(s: State, m: Msg, ws: State, engine: DbOps.Engine, i: nat)
    requires s.env.role == Main && ws.env.role == Worker
    requires i < |s.pool|
    ensures var t := SendToAll(s, m).st;
      var p := t.outbox[|s.outbox| + i];
      && p.dest == Unit(s.pool[i])
      && Dispatch.ProcessWorker(ws, p.msg, engine) == Done(ws.(effects := ws.effects + [t.effects[|s.effects|]]))
  {
  }

  /** Round trip of a `db` request: a worker answers a known operation by calling the
      engine method of that name and posting its result to master, and the coordinator,
      processing that reply, records it under the request's id, whether or not it is ready. */
  lemma DbRoundTrip(ws: State, s: State, m: Msg, engine: DbOps.Engine)
    requires ws.env.role == Worker && s.env.role == Main && s.env.dbDataDefined
    requires m.kind == "db" && DbOps.Parse(m.fnc).Some?
    ensures var op := DbOps.Parse(m.fnc).value;
      var w := Dispatch.ProcessWorker(ws, m, engine).st;
      var reply := w.outbox[|ws.outbox|];
      && w.effects == ws.effects + [DbCall(DbOps.Name(op), DbOps.Args(op, m))]
      && reply.dest == Master
      && Dispatch.ProcessMain(s, reply.msg)
         == Done(s.(records := s.records + [Record(m.id, engine(op, DbOps.Args(op, m)))]))
  {
  }

  /** An unknown `db` operation still comes back to the coordinator, carrying the
      request's own `items`, and is recorded as such. */
  lemma UnknownDbOpEchoed(ws: State, s: State, m: Msg, engine: DbOps.Engine)
    requires ws.env.role == Worker && s.env.role == Main && s.env.dbDataDefined
    requires m.kind == "db" && DbOps.Parse(m.fnc).None?
    ensures var reply := Dispatch.ProcessWorker(ws, m, engine).st.outbox[|ws.outbox|];
      && reply == Post(Master, m)
      && Dispatch.ProcessMain(s, reply.msg) == Done(s.(records := s.records + [Record(m.id, m.items)]))
  {
  }

  /** An `interface` write is readable at its path afterwards, on a worker at once and on
      the coordinator once it is ready. */
  lemma InterfaceWriteReadable(s: State, m: Msg, engine: DbOps.Engine)
    requires m.kind == "interface"
    requires s.env.role == Main ==> Dispatch.Ready(s.env)
    ensures var r := Dispatch.Process(s, m, engine);
      r.Done? && m.path in r.st.registry && r.st.registry[m.path] == m.value
  {
  }

  /** In a well-formed pool every pooled unit receives a `sendToAllWorkers` broadcast exactly once. */
  lemma WfBroadcastOnce(s: State, m: Msg, h: Handle)
    requires Pool.Wf(s) && h in s.pool
    ensures Routing.PostsTo(Routing.Broadcast(s.pool, m), Unit(h)) == 1
  {
    Routing.BroadcastOncePerUnit(s.pool, m, h);
    Routing.OccursDistinct(s.pool, h);
  }

  /** A `sendToAll` issued on a worker reaches master unchanged and goes no further: the
      coordinator's `process` never posts, whatever it makes of the message, so no other
      worker receives it. */
  lemma WorkerSendToAllStopsAtMaster(ws: State, c: State, m: Msg)
    requires ws.env.role == Worker
    ensures SendToAll(ws, m).st.outbox == ws.outbox + [Post(Master, m)]
    ensures var r := Dispatch.ProcessMain(c, m); r.Done? ==> r.st.outbox == c.outbox
  {
  }

  /** With an empty pool a `db` request sent by the coordinator never reaches the engine:
      the local fallback treats it as a reply and records the request's own `items`, and
      no `DbCall` is issued. */
  lemma EmptyPoolDbSkipsEngine(s: State, m: Msg, choice: nat)
    requires s.env.role == Main && s.pool == [] && s.env.dbDataDefined
    requires m.kind == "db"
    ensures SendToWorker(s, m, choice) == Done(s.(records := s.records + [Record(m.id, m.items)]))
  {
  }

  /** After a unit's `exit` listener ran, `sendToWorker` can still pick the dead unit. */
  lemma DeadHandleStillPickable(s: State, m: Msg, i: nat)
    requires s.env.role == Main && i < |s.pool|
    ensures var t := Pool.OnExit(s);
      SendToWorker(t, m, i) == Done(t.(outbox := t.outbox + [Post(Unit(s.pool[i]), m)]))
  {
  }
}
